=== FILE: README.md ===
# webpack-tool navigation data and build bookkeeping, in Dafny

This project models the part of the webpack development-server wrapper that has
logic of its own: how the tool classifies a build (Server, Weex or Web), how it
rewrites a build's public path onto the dev-server port, which output files the
navigation pages list and under which URLs, how `WebpackTool.server` assigns ports
and records finished builds, and how `utils.getIp` picks a local address.

The modules follow the source:

- `Build` holds the Server/Weex/Web rule. `getBuildName` in lib/view.js:4-15 and
  lib/tool.js:151-162 are the same text, and both are `Build.BuildName`. Its
  target-and-modules rule, also used by `getName` in lib/nav.js:11-22, is
  `Build.Classify`.
- `PublicPath` holds `normalizePublicPath` as lib/view.js:17-23 writes it.
  lib/nav.js:24-30 is a copy of it.
- `View` holds `filterFile` (lib/view.js:25-34) and the data that
  `renderDebugTemplate` hands to the template. lib/nav.js:32-41 is a copy of
  that `filterFile`.
- `Nav` holds `NavigationPage.getName` and `NavigationPage.resolve`.
- `Tool` holds the bookkeeping of `WebpackTool.server`, the tool's own
  `normalizePublicPath` and the data of its `renderDebugTemplate`.
- `Utils` holds `getIp`. The interface table is a parameter.
- `Strings`, `Patterns` and `Ordering` are shared helpers. They turn each regular
  expression into a suffix, substring or first-match predicate. They model
  JavaScript's default string `sort()` as lexicographic character order,
  `filter` as an order-preserving selection, and `Object.keys` on the port-keyed
  table as ascending numeric order.

Each completed build (a webpack `done` callback) is an event `DoneEvent(index,
stats)`, and a run is a sequence of such events. The one-shot latch counts
events, not distinct configurations. Any n events start the debug server, even
if one configuration sent several of them. `Tool.RunLatch` states this as the
source has it.

## Model

| member | source | states |
|---|---|---|
| `Build.BuildName` | lib/view.js:4-15 | Server exactly when the stat's target is `node`, whatever the modules; Weex exactly when it is not `node` and some module request contains `weex-vue-loader`; Web exactly when neither |
| `Build.AnyWeexModule` | lib/view.js:10 | `modules.some(...)` is true exactly when some module's request contains `weex-vue-loader`; an undefined request never matches |
| `Build.Classify` | lib/view.js:7-14 | the rule, also at lib/nav.js:14-21 and lib/tool.js:154-161, for a target and module list: Server exactly for the `node` target, Weex exactly when the target is not `node` and some module request contains `weex-vue-loader`, Web exactly when neither |
| `Nav.Name` | lib/nav.js:11-22 | the same Server/Weex/Web priority, with the target taken from the compiler's options rather than from the stat |
| `Patterns.SegmentLengthAt` | lib/view.js:19 | `/:\d{2,6}\//` matches at a position exactly when the whole digit run after `:` has 2 to 6 digits and is followed by `/`; the match length is unique |
| `Patterns.FindSegment` | lib/view.js:19 | the search returns the leftmost match at or after the start, and reports none only when no position matches |
| `Patterns.ReplacePortSegment` | lib/view.js:19 | only the leftmost `:digits/` is replaced and everything around it is kept; a string with no match comes back unchanged |
| `Strings.DecimalString` | lib/view.js:19 | the port as a template literal prints it: decimal digits only, a leading `0` only in `0` itself, and it parses back to the port |
| `Strings.PortDigits` | lib/view.js:19 | a port prints with 2 to 6 digits, which is what `\d{2,6}` accepts, exactly when it lies in 10..999999 |
| `PublicPath.Normalize` | lib/view.js:17-23 | an absolute path (containing `http:` or `https:`) gets its first `:digits/` replaced by `:port/`, or is unchanged if it has none; a relative path becomes `http://` + ip + `:` + port + `/` + the path minus at most one leading `/` |
| `Patterns.ReplaceIdempotent` | lib/view.js:19 | replacing the first `:digits/` with a port segment a second time changes nothing |
| `PublicPath.NormalizeIdempotent` | lib/view.js:18-19 | normalising an absolute path again with the same 2-to-6-digit port changes nothing: the scheme survives and the rewritten segment is still the first match |
| `Utils.IPv4Addresses` | lib/utils.js:10-14 | an address is collected exactly when some entry of the interface with family `IPv4` carries it |
| `Utils.IPv4AddressesIsSelection` | lib/utils.js:10-14 | one interface's loop collects exactly the addresses of the entries that `filter` with the `IPv4` family test keeps, in order |
| `Utils.CandidateIps` | lib/utils.js:9-22 | the candidate list is one IPv4 selection, in order, over the `en0` entries followed by the `en1` entries; a missing interface contributes nothing |
| `Utils.CollectIps` | lib/utils.js:9-22 | the loops collect the IPv4 addresses of `en0`, in order, followed by those of `en1`, in order; a missing interface contributes nothing |
| `Utils.GetIp` | lib/utils.js:5-29 | position p in 1..\|ips\| gives ips[p-1]; any other or absent position gives ips[0] when there is a candidate; no candidate gives `127.0.0.1`; the result is always a candidate or `127.0.0.1` |
| `Utils.GetIpIgnoresOtherInterfaces` | lib/utils.js:9-22 | interfaces other than `en0` and `en1` never change the result |
| `Ordering.Sort` | lib/view.js:27 | the default `sort()` returns a sorted rearrangement of its input |
| `Ordering.SortedUnique` | lib/view.js:33 | two sorted rearrangements of the same strings are equal, so the sorted result is determined by its contents |
| `Ordering.FilterMultiset` | lib/view.js:31-32 | `filter` keeps every occurrence of an accepted element and no occurrence of a rejected one |
| `Ordering.SortFilterCommute` | lib/view.js:31-33 | filtering then sorting gives the same sequence as sorting then filtering |
| `Ordering.AscendingKeys` | lib/view.js:38 | `Object.keys` on the port-keyed table lists every port once, strictly ascending |
| `Ordering.AscendingKeysRank` | lib/view.js:38 | each port stands at the position given by the number of smaller stored ports |
| `Ordering.ByRank` | lib/view.js:38-40 | visiting the port-keyed table through `Object.keys` yields each stored value once, the value for port p at p's rank |
| `View.FilterFile` | lib/view.js:25-34 | the result is sorted. When there are page entries, it holds exactly the `.html`/`.htm`/`.tpl` page entries, whatever `files` holds, and is empty if no page entry has such a name. When there are none, it holds exactly the `.js` files that are not `.hot-update.js`/`.hot-update.json`. Each name occurs as often as in its source list |
| `View.FilterFileDetermined` | lib/view.js:25-34 | the contract of `FilterFile` admits exactly one result |
| `View.FilterFileScriptsExample` | lib/view.js:31-33 | `[main.js, main.hot-update.js, vendor.css]` without page entries lists `[main.js]` |
| `View.FilterFilePagesExample` | lib/view.js:26-30 | page entries `[index.html, about.htm]` list `[about.htm, index.html]`, whatever the other files |
| `Strings.DropLeadingSlash` | lib/view.js:22 | `replace(/^\//, '')` removes one leading `/` when there is one, and otherwise returns the string unchanged |
| `Strings.DropTrailingSlash` | lib/view.js:50 | `replace(/\/$/, '')` removes one trailing `/` when there is one, and otherwise returns the string unchanged |
| `Strings.JoinUrl` | lib/view.js:50 | in each of the four slash cases the URL is base and name with exactly one `/` between them: one is added when neither side has one, and one of two is dropped when both do |
| `Strings.JoinUrlExample` | lib/view.js:50 | `http://h:9000/` with `/a.js` and `http://h:9000` with `a.js` both give `http://h:9000/a.js` |
| `View.Entry` | lib/view.js:39-53 | an entry's name is the build kind of its stat. Its files are exactly the `FilterFile` names, in order, each linked by the join under the normalised public path of the build's port |
| `View.RenderDebugData` | lib/view.js:36-54 | one entry per stored result, the entry for port p standing at p's rank among the stored ports |
| `Patterns.TemplateNameMeaning` | lib/view.js:28 | the page pattern matches a name exactly when, at some position, a `.` is followed by `html`, `htm` or `tpl` and then the end of the name |
| `Patterns.JsBundleMeaning` | lib/view.js:32 | the script test accepts a name exactly when it ends in `.js` and not in `.hot-update.js`; the `json` alternative of the hot-update pattern never excludes a `.js` name |
| `Patterns.AbsoluteUrlMeaning` | lib/view.js:18 | `/https?:/` matches exactly when, at some position, the characters `http` are followed by `:` or by `s:` |
| `Patterns.TemplateIsNotJsBundle` | lib/nav.js:54-59 | no name is both a page/template and a listed script bundle |
| `Nav.Assets` | lib/nav.js:46-52 | every asset key is listed as often as it occurs, in ascending order, and each URL is the join of the normalised public path and the name |
| `Nav.Resolve` | lib/nav.js:43-62 | `html` and `js` are the sorted page and script selections of the asset keys. They never share a name, every URL is the join, and `files` is `html` unless `html` is empty, then `js` |
| `Nav.ResolveAgreesWithFilterFile` | lib/nav.js:32-60 | the names `resolve` shows equal what `filterFile` returns for the asset keys when given the page entries among them |
| `Tool.BasePort` | lib/tool.js:14 | the base port is the configured port, or 9000 when none is configured |
| `Tool.Plan` | lib/tool.js:31-39 | one server per configuration, in order: configuration i gets port base + i, its own public path, and `hot` exactly when its target is not `node` |
| `Tool.ServerPlan` | lib/tool.js:14-39 | `server` starts one dev server per configuration, a single configuration counting as a list of one; configuration i listens on the configured port plus i, or 9000 plus i when no port is configured |
| `Tool.PlanServesEachConfig` | lib/tool.js:36 | the `hot: target !== 'node'` option passed for configuration i makes the dev server use the hot middleware exactly when that configuration's target is not `node` |
| `Tool.UnsetHotIsEnabled` | lib/tool.js:134 | an undefined `hot` option enables the hot middleware |
| `Tool.PortsDistinct` | lib/tool.js:33-53 | the dev-server ports are pairwise distinct and none equals the debug port `base + n + 1` |
| `Tool.StoreStats` | lib/tool.js:42-49 | the last stat of a done event overwrites the port's entry; no stats, no write |
| `Tool.OnDone` | lib/tool.js:40-55 | a done event increments the counter and overwrites only its own port's entry, leaving every other port unchanged. It starts the debug server, on port `base + n + 1`, exactly when the latch is open and the new count is a multiple of n |
| `Tool.Run` | lib/tool.js:40-55 | after a run of k done callbacks the count is k, each callback has one recorded effect, and the debug server has been started exactly when some callback started it |
| `Tool.RunLatch` | lib/tool.js:29-55 | after k events the count is k; the debug server is started by exactly the event that brings the count to n, whichever configurations the events came from, and by no other |
| `Tool.DebugServerStartsOnce` | lib/tool.js:51-53 | no two events of a run start the debug server |
| `Tool.RunResultPorts` | lib/tool.js:42-49 | after a run, a port has an entry exactly when some event for it carried stats |
| `Tool.RunResultValues` | lib/tool.js:42-49 | after a run, a port's entry is the record of the last event for it that carried stats |
| `Tool.NormalizeAsWritten` | lib/tool.js:164-170 | an absolute path gets its first `:digits/` replaced by `:port`, losing the `/`, and is otherwise unchanged; a relative path is treated as in lib/view.js |
| `Tool.AsWrittenLosesSlash` | lib/tool.js:166 | compared with lib/view.js, the result lacks exactly the `/` after the new port |
| `Tool.AsWrittenExample` | lib/tool.js:166 | `http://h:8000/pub/` on port 9001 becomes `http://h:9001pub/` |
| `Tool.CorrectedExample` | lib/view.js:19 | the lib/view.js rewrite of the same input gives `http://h:9001/pub/` |
| `Tool.Entry` | lib/tool.js:176-188 | every stored file, unfiltered and in stored order, named as stored, with URL = normalised public path followed by the name |
| `Tool.RenderDebugData` | lib/tool.js:172-191 | one entry per stored result, placed at its port's rank among the stored ports |

## Left out

- lib/proxy.js and lib/hot.js: koa middleware around `http-proxy`, `http-proxy-middleware` and `webpack-hot-middleware`. They are library plumbing with no local logic worth stating.
- `createWebpackServer` (except its `hot` test), `createDebugServer`, `build`, `normalizeManifestFile` and `setConfig` in lib/tool.js. These cover koa setup, `listen`, CORS, opening a browser, webpack compilation, stdout and the manifest library, all of it external.
- The `artTemplate` call and `NavigationPage.create`. Only the data handed to the template is modelled.
- Build kinds are the enumeration `Server | Weex | Web` rather than the strings `'Server'`, `'Weex'` and `'Web'`.
- `os.networkInterfaces()`: the interface table is a parameter. The numeric `family` of newer Node versions is not modelled, because the source compares against the string `IPv4`.
- Real asynchronous interleaving of `done` callbacks: events form a sequence.
- Several `server` calls on one `WebpackTool`. The model covers a single call on a fresh instance (`Tool.Initial`). The latch flag `isStartDebugServer` (lib/tool.js:16) and the result table `webpackBuildResult` (lib/tool.js:15) are instance fields, and only `buildCount` (lib/tool.js:29) is local to `server`. So a second call shares the table and never starts a debug server. That sharing is not modelled.
- `webpack-merge` semantics: `Tool.BasePort` models only the `port: 9000` default.
- Webpack's `target` may be a function. Here it is an optional string, and only the string `node` counts as a node target.
- String order compares Unicode code points. JavaScript compares UTF-16 code units, which differ only for characters above U+FFFF.
- Ports and positions are integers. Non-integer or negative JavaScript numbers are not modelled.
- Strings.DecimalString prints every natural number in plain digits. JavaScript switches to exponent notation from 10^21 up; no port reaches that range, so it is not modelled.
- `output.publicPath` is a string here. When it is unset, `normalizePublicPath` throws a TypeError at `publicPath.replace` (lib/view.js:22, lib/nav.js:29, lib/tool.js:169), and `renderDebugTemplate` fails. The model cannot express that throw.
- `Object.keys` order: only integer-like keys enumerate in ascending order. The port-keyed tables are modelled as maps from naturals, so a port of 2^32-1 or more, which JavaScript would list in insertion order, is not modelled.
- The order of `Object.keys(compilation.assets)` is taken as given, as the `assets` sequence of a stat.
- The in-place mutation of the caller's `htmls` array by `sort()` is not modelled. Only the returned list is.
- The producer of lib/view.js's result records, which carry `htmls`, is not part of this model. The tool.js records carry no `htmls`.

## Findings

| source | as written | input that shows it | evidently intended | confidence | as-written member | corrected member |
|---|---|---|---|---|---|---|
| lib/tool.js:166 | replaces `:<digits>/` with `:<port>`, dropping the `/` | public path `http://h:8000/pub/`, port 9001 | `:<port>/`, as in lib/view.js:19 and lib/nav.js:26, giving `http://h:9001/pub/`; as written it gives `http://h:9001pub/`, and every debug-page URL built from it by concatenation is broken | high; not executed | `Tool.AsWrittenExample` | `PublicPath.Normalize` |

The lib/view.js and lib/nav.js models use `PublicPath.Normalize`. `Tool.RenderDebugData`
keeps the tool.js rewrite as written, and `Tool.AsWrittenLosesSlash` states the
difference for every absolute public path.

=== FILE: build.dfy ===
/** The webpack data the navigation pages read, and the Server/Weex/Web
    classification of a build (`getBuildName` in lib/view.js and lib/tool.js,
    `getName` in lib/nav.js). */
module Build {
  import opened Wrappers
  import opened Strings

  /** A compiled module; `request` is undefined for some synthetic modules. */
  datatype WebpackModule = WebpackModule(request: Option<string>)

  /** The parts of a compilation's stats the tool reads:
      `compilation.options.target`, `compilation.modules` and the key order
      of `compilation.assets`. */
  datatype Stat = Stat(target: Option<string>, modules: seq<WebpackModule>, assets: seq<string>)

  /** The parts of a webpack configuration the tool reads: `target` and
      `output.publicPath`. */
  datatype WebpackConfig = WebpackConfig(target: Option<string>, publicPath: string)

  datatype BuildKind = Server | Weex | Web

  predicate IsNodeTarget(target: Option<string>) {
    target == Some("node")
  }

  /** `/weex-vue-loader/.test(m.request)`; an undefined request is converted
      to the text "undefined", which never matches. */
  predicate IsWeexModule(m: WebpackModule) {
    m.request.Some? && Contains(m.request.value, "weex-vue-loader")
  }

  /** `modules.some(isWeex)`. */
  function AnyWeexModule(modules: seq<WebpackModule>): (b: bool)
    ensures b <==> exists m :: m in modules && IsWeexModule(m)
  {
    if |modules| == 0 then false
    else IsWeexModule(modules[0]) || AnyWeexModule(modules[1..])
  }

  /** The classification, first rule wins: a `node` target is Server whatever
      its modules; otherwise any Weex-loader module makes it Weex; otherwise
      Web. */
  function Classify(target: Option<string>, modules: seq<WebpackModule>): (r: BuildKind)
    ensures r == Server <==> IsNodeTarget(target)
    ensures r == Weex <==> !IsNodeTarget(target) && exists m :: m in modules && IsWeexModule(m)
    ensures r == Web <==> !IsNodeTarget(target) && forall m :: m in modules ==> !IsWeexModule(m)
  {
    if IsNodeTarget(target) then Server
    else if AnyWeexModule(modules) then Weex
    else Web
  }

  /** `getBuildName(stat)`: the target is read from the stat's own options. */
  function BuildName(stat: Stat): (r: BuildKind)
    ensures r == Server <==> stat.target == Some("node")
    ensures r == Weex <==> stat.target != Some("node") && exists m :: m in stat.modules && IsWeexModule(m)
    ensures r == Web <==> stat.target != Some("node") && forall m :: m in stat.modules ==> !IsWeexModule(m)
  {
    Classify(stat.target, stat.modules)
  }
}

=== FILE: nav.dfy ===
/** lib/nav.js: the single-build navigation page (`NavigationPage`). Its
    `normalizePublicPath` and `filterFile` are textual copies of those of
    lib/view.js and are modelled by `PublicPath.Normalize` and
    `View.FilterFile`. */
module Nav {
  import opened Wrappers
  import opened Strings
  import opened Ordering
  import opened Patterns
  import opened Build
  import PublicPath
  import Utils
  import View

  /** A page: the dev-server port (`config.port`), the compiler's options
      (`compiler.options`) and the finished compilation's stats. */
  datatype NavPage = NavPage(port: nat, compiler: WebpackConfig, stat: Stat)

  datatype Asset = Asset(name: string, url: string)

  /** The object `resolve` returns. */
  datatype NavData = NavData(name: BuildKind, files: seq<Asset>, html: seq<Asset>, js: seq<Asset>)

  /** `getName`: the target is the compiler's (not the stat's); the modules
      are the compilation's. */
  function Name(page: NavPage): (r: BuildKind)
    ensures r == Server <==> page.compiler.target == Some("node")
    ensures r == Weex <==> page.compiler.target != Some("node") &&
                           exists m :: m in page.stat.modules && IsWeexModule(m)
    ensures r == Web <==> page.compiler.target != Some("node") &&
                          forall m :: m in page.stat.modules ==> !IsWeexModule(m)
  {
    Classify(page.compiler.target, page.stat.modules)
  }

  function Names(assets: seq<Asset>): (r: seq<string>)
    ensures |r| == |assets|
    ensures forall j :: 0 <= j < |r| ==> r[j] == assets[j].name
  {
    if |assets| == 0 then [] else [assets[0].name] + Names(assets[1..])
  }

  predicate IsTemplateAsset(a: Asset) {
    IsTemplateName(a.name)
  }

  predicate IsJsAsset(a: Asset) {
    IsJsBundle(a.name)
  }

  /** Filtering assets by name and then taking names is taking names and
      then filtering. */
  lemma {:induction false} NamesFilter(assets: seq<Asset>, p: Asset -> bool, q: string -> bool)
    requires forall a :: p(a) == q(a.name)
    ensures Names(Filter(assets, p)) == Filter(Names(assets), q)
  {
    if |assets| > 0 {
      NamesFilter(assets[1..], p, q);
      assert Names(assets)[1..] == Names(assets[1..]);
      assert Names((if p(assets[0]) then [assets[0]] else []) + Filter(assets[1..], p))
             == (if p(assets[0]) then [assets[0].name] else []) + Names(Filter(assets[1..], p));
    }
  }

  function ToAssets(publicPath: string, names: seq<string>): (r: seq<Asset>)
    ensures Names(r) == names
    ensures forall j :: 0 <= j < |r| ==> r[j].url == JoinUrl(publicPath, names[j])
  {
    seq(|names|, j requires 0 <= j < |names| => Asset(names[j], JoinUrl(publicPath, names[j])))
  }

  /** The URL base of the page: the normalised public path on the page's port. */
  function Base(page: NavPage, interfaces: Utils.Interfaces): string {
    PublicPath.Normalize(page.compiler.publicPath, page.port, interfaces)
  }

  /** Every asset key exactly once, in ascending order, each with its URL by
      the slash-normalising join. */
  function Assets(page: NavPage, interfaces: Utils.Interfaces): (r: seq<Asset>)
    ensures Sorted(Names(r))
    ensures multiset(Names(r)) == multiset(page.stat.assets)
    ensures forall j :: 0 <= j < |r| ==> r[j].url == JoinUrl(Base(page, interfaces), r[j].name)
  {
    ToAssets(Base(page, interfaces), Sort(page.stat.assets))
  }

  /** Selecting assets by a name predicate from a sorted listing of `keys`
      gives the sorted selection of `keys`. */
  lemma SelectionByName(assets: seq<Asset>, keys: seq<string>, p: Asset -> bool, q: string -> bool)
    requires forall a :: p(a) == q(a.name)
    requires Sorted(Names(assets)) && multiset(Names(assets)) == multiset(keys)
    ensures Sorted(Names(Filter(assets, p)))
    ensures forall x :: multiset(Names(Filter(assets, p)))[x] == if q(x) then multiset(keys)[x] else 0
  {
    NamesFilter(assets, p, q);
    FilterSorted(Names(assets), q);
    FilterMultiset(Names(assets), q);
  }

  /** Selection keeps each asset's URL. */
  lemma SelectionKeepsUrls(assets: seq<Asset>, base: string, p: Asset -> bool)
    requires forall j :: 0 <= j < |assets| ==> assets[j].url == JoinUrl(base, assets[j].name)
    ensures forall a :: a in Filter(assets, p) ==> a.url == JoinUrl(base, a.name)
  {
    FilterMultiset(assets, p);
    forall a | a in Filter(assets, p) ensures a.url == JoinUrl(base, a.name) {
      assert multiset(Filter(assets, p))[a] > 0;
      assert a in multiset(assets);
    }
  }

  /** No asset is selected both as a page and as a script bundle. */
  lemma SelectionsDisjoint(assets: seq<Asset>)
    ensures forall a, b :: a in Filter(assets, IsTemplateAsset) && b in Filter(assets, IsJsAsset) ==> a.name != b.name
  {
    var html := Filter(assets, IsTemplateAsset);
    var js := Filter(assets, IsJsAsset);
    forall a, b | a in html && b in js ensures a.name != b.name {
      var i :| 0 <= i < |html| && html[i] == a;
      var j :| 0 <= j < |js| && js[j] == b;
      assert IsTemplateAsset(html[i]) && IsJsAsset(js[j]);
      PageIsNotScript(a, b);
    }
  }

  lemma PageIsNotScript(a: Asset, b: Asset)
    requires IsTemplateAsset(a) && IsJsAsset(b)
    ensures a.name != b.name
  {
    TemplateIsNotJsBundle(a.name);
  }

  /** `resolve`: `html` holds the page assets and `js` the script bundles,
      each sorted and each holding every such asset key as often as it
      occurs; the two never share a name; `files` is `html` unless that is
      empty, then `js`. */
  function Resolve(page: NavPage, interfaces: Utils.Interfaces): (r: NavData)
    ensures r.name == Name(page)
    ensures Sorted(Names(r.html)) && Sorted(Names(r.js))
    ensures forall x :: multiset(Names(r.html))[x] ==
              if IsTemplateName(x) then multiset(page.stat.assets)[x] else 0
    ensures forall x :: multiset(Names(r.js))[x] ==
              if IsJsBundle(x) then multiset(page.stat.assets)[x] else 0
    ensures forall a, b :: a in r.html && b in r.js ==> a.name != b.name
    ensures forall a :: a in r.html ==> a.url == JoinUrl(Base(page, interfaces), a.name)
    ensures forall a :: a in r.js ==> a.url == JoinUrl(Base(page, interfaces), a.name)
    ensures r.files == if |r.html| > 0 then r.html else r.js
  {
    var assets := Assets(page, interfaces);
    SelectionByName(assets, page.stat.assets, IsTemplateAsset, IsTemplateName);
    SelectionByName(assets, page.stat.assets, IsJsAsset, IsJsBundle);
    SelectionKeepsUrls(assets, Base(page, interfaces), IsTemplateAsset);
    SelectionKeepsUrls(assets, Base(page, interfaces), IsJsAsset);
    SelectionsDisjoint(assets);
    var html := Filter(assets, IsTemplateAsset);
    var js := Filter(assets, IsJsAsset);
    NavData(Name(page), if |html| > 0 then html else js, html, js)
  }

  /** `resolve` and `filterFile` pick the same names from the same asset keys
      when `filterFile` is given the page entries among them: sorting then
      filtering equals filtering then sorting. */
  lemma ResolveAgreesWithFilterFile(page: NavPage, interfaces: Utils.Interfaces)
    ensures Names(Resolve(page, interfaces).files)
            == View.FilterFile(page.stat.assets, Filter(page.stat.assets, IsTemplateName))
  {
    var r := Resolve(page, interfaces);
    assert Names(r.files) == if |Names(r.html)| > 0 then Names(r.html) else Names(r.js);
    PreferenceAgrees(page.stat.assets, Names(r.html), Names(r.js), Names(r.files));
  }

  /** The preference rule on name lists: pages when there are any, otherwise
      scripts, is `filterFile` fed with the page names among the keys. */
  lemma PreferenceAgrees(keys: seq<string>, html: seq<string>, js: seq<string>, files: seq<string>)
    requires Sorted(html) && Sorted(js)
    requires forall x :: multiset(html)[x] == if IsTemplateName(x) then multiset(keys)[x] else 0
    requires forall x :: multiset(js)[x] == if IsJsBundle(x) then multiset(keys)[x] else 0
    requires files == if |html| > 0 then html else js
    ensures files == View.FilterFile(keys, Filter(keys, IsTemplateName))
  {
    var pages := Filter(keys, IsTemplateName);
    FilterMultiset(keys, IsTemplateName);
    assert multiset(html) == multiset(pages);
    assert |html| == |multiset(html)| == |multiset(pages)| == |pages|;
    View.FilterFileDetermined(keys, pages, files);
  }
}

=== FILE: ordering.dfy ===
/** The orderings the tool relies on: JavaScript's default `Array.prototype.sort`
    on strings (lexicographic on characters), the order-preserving
    `Array.prototype.filter`, and the ascending enumeration of integer-like keys
    that `Object.keys` performs on the port-keyed result table. */
module Ordering {

  /** `a` sorts no later than `b`: lexicographic comparison of characters, a
      proper prefix sorting first. */
  predicate Le(a: string, b: string)
    decreases |a|
  {
    |a| == 0 || (|b| > 0 && (a[0] < b[0] || (a[0] == b[0] && Le(a[1..], b[1..]))))
  }

  lemma {:induction false} LeReflexive(a: string)
    ensures Le(a, a)
    decreases |a|
  {
    if |a| > 0 {
      LeReflexive(a[1..]);
    }
  }

  lemma {:induction false} LeTotal(a: string, b: string)
    ensures Le(a, b) || Le(b, a)
    decreases |a|
  {
    if |a| > 0 && |b| > 0 && a[0] == b[0] {
      LeTotal(a[1..], b[1..]);
    }
  }

  lemma {:induction false} LeAntisymmetric(a: string, b: string)
    requires Le(a, b) && Le(b, a)
    ensures a == b
    decreases |a|
  {
    if |a| > 0 {
      LeAntisymmetric(a[1..], b[1..]);
      assert a == [a[0]] + a[1..];
      assert b == [b[0]] + b[1..];
    }
  }

  lemma {:induction false} LeTransitive(a: string, b: string, c: string)
    requires Le(a, b) && Le(b, c)
    ensures Le(a, c)
    decreases |a|
  {
    if |a| > 0 && a[0] == b[0] && b[0] == c[0] {
      LeTransitive(a[1..], b[1..], c[1..]);
    }
  }

  ghost predicate Sorted(s: seq<string>) {
    forall i, j :: 0 <= i < j < |s| ==> Le(s[i], s[j])
  }

  /** Every element of `s` sorts no earlier than `x`. */
  ghost predicate Below(x: string, s: seq<string>) {
    forall j :: 0 <= j < |s| ==> Le(x, s[j])
  }

  lemma SortedCons(x: string, s: seq<string>)
    requires Sorted(s) && Below(x, s)
    ensures Sorted([x] + s)
  {
    var t := [x] + s;
    forall i, j | 0 <= i < j < |t|
      ensures Le(t[i], t[j])
    {
      if i > 0 {
        assert t[i] == s[i - 1] && t[j] == s[j - 1];
      }
    }
  }

  /** `x` sorts no later than anything that occurs in `s` (stated through the
      multiset of `s`, so that it survives rearrangement). */
  lemma BelowByMultiset(x: string, s: seq<string>, t: seq<string>)
    requires Below(x, s) && multiset(t) <= multiset(s)
    ensures Below(x, t)
  {
    forall j | 0 <= j < |t|
      ensures Le(x, t[j])
    {
      assert t[j] in multiset(t);
      assert t[j] in multiset(s);
      var k :| 0 <= k < |s| && s[k] == t[j];
    }
  }

  /** Insertion of one string into a sorted sequence. */
  function Insert(x: string, s: seq<string>): (r: seq<string>)
    requires Sorted(s)
    ensures Sorted(r)
    ensures multiset(r) == multiset(s) + multiset{x}
  {
    if |s| == 0 then [x]
    else if Le(x, s[0]) then
      assert Below(x, s) by {
        forall j | 0 <= j < |s| ensures Le(x, s[j]) {
          if j > 0 { LeTransitive(x, s[0], s[j]); }
        }
      }
      SortedCons(x, s);
      [x] + s
    else
      var tail := s[1..];
      SortedTail(s);
      var rest := Insert(x, tail);
      assert Below(s[0], [x] + tail) by {
        LeTotal(x, s[0]);
        forall j | 0 <= j < |[x] + tail| ensures Le(s[0], ([x] + tail)[j]) {
          if j > 0 { assert ([x] + tail)[j] == s[j]; }
        }
      }
      BelowByMultiset(s[0], [x] + tail, rest);
      SortedCons(s[0], rest);
      assert s == [s[0]] + tail;
      [s[0]] + rest
  }

  /** JavaScript's default `sort()` on an array of strings: the sorted
      rearrangement of its input. */
  function Sort(s: seq<string>): (r: seq<string>)
    ensures Sorted(r)
    ensures multiset(r) == multiset(s)
  {
    if |s| == 0 then []
    else
      assert s == [s[0]] + s[1..];
      Insert(s[0], Sort(s[1..]))
  }

  /** Two sorted arrangements of the same strings are the same sequence: the
      order is total and antisymmetric, so sorting has exactly one answer. */
  lemma {:induction false} SortedUnique(a: seq<string>, b: seq<string>)
    requires Sorted(a) && Sorted(b)
    requires multiset(a) == multiset(b)
    ensures a == b
  {
    if |a| == 0 {
      assert |b| == |multiset(b)| == 0;
    } else {
      assert |b| == |multiset(b)| == |multiset(a)| == |a|;
      SameHead(a, b);
      SortedTail(a);
      SortedTail(b);
      assert multiset(a[1..]) == multiset(b[1..]) by {
        assert a == [a[0]] + a[1..];
        assert b == [b[0]] + b[1..];
        assert multiset(a[1..]) == multiset(a) - multiset{a[0]};
        assert multiset(b[1..]) == multiset(b) - multiset{b[0]};
      }
      SortedUnique(a[1..], b[1..]);
      assert a == [a[0]] + a[1..];
      assert b == [b[0]] + b[1..];
    }
  }

  /** Two non-empty sorted arrangements of the same strings start alike. */
  lemma SameHead(a: seq<string>, b: seq<string>)
    requires Sorted(a) && Sorted(b) && |a| > 0 && |b| > 0
    requires multiset(a) == multiset(b)
    ensures a[0] == b[0]
  {
    assert a[0] in multiset(b);
    var j :| 0 <= j < |b| && b[j] == a[0];
    assert b[0] in multiset(a);
    var i :| 0 <= i < |a| && a[i] == b[0];
    LeReflexive(a[0]);
    assert Le(b[0], a[0]) by { if j > 0 { assert Le(b[0], b[j]); } }
    assert Le(a[0], b[0]) by { if i > 0 { assert Le(a[0], a[i]); } }
    LeAntisymmetric(a[0], b[0]);
  }

  lemma SortedTail(s: seq<string>)
    requires Sorted(s) && |s| > 0
    ensures Sorted(s[1..])
  {
    var tail := s[1..];
    forall i, j | 0 <= i < j < |tail| ensures Le(tail[i], tail[j]) {
      assert tail[i] == s[i + 1] && tail[j] == s[j + 1];
    }
  }

  /** `Array.prototype.filter`: the elements satisfying `p`, in their order. */
  function Filter<T>(s: seq<T>, p: T -> bool): (r: seq<T>)
    ensures |r| <= |s|
    ensures forall i :: 0 <= i < |r| ==> p(r[i])
  {
    if |s| == 0 then [] else (if p(s[0]) then [s[0]] else []) + Filter(s[1..], p)
  }

  /** The filter keeps every occurrence of an accepted element and no
      occurrence of a rejected one. */
  lemma {:induction false} FilterMultiset<T(!new)>(s: seq<T>, p: T -> bool)
    ensures forall x :: multiset(Filter(s, p))[x] == if p(x) then multiset(s)[x] else 0
  {
    if |s| > 0 {
      FilterMultiset(s[1..], p);
      assert s == [s[0]] + s[1..];
      assert multiset(s) == multiset{s[0]} + multiset(s[1..]);
    }
  }

  /** Filtering distributes over concatenation: it keeps the relative order of
      the parts. */
  lemma {:induction false} FilterAppend<T>(a: seq<T>, b: seq<T>, p: T -> bool)
    ensures Filter(a + b, p) == Filter(a, p) + Filter(b, p)
  {
    if |a| > 0 {
      var ab := a + b;
      assert ab[0] == a[0];
      assert ab[1..] == a[1..] + b;
      FilterAppend(a[1..], b, p);
      var head: seq<T> := if p(a[0]) then [a[0]] else [];
      calc {
        Filter(ab, p);
        head + Filter(ab[1..], p);
        head + (Filter(a[1..], p) + Filter(b, p));
        (head + Filter(a[1..], p)) + Filter(b, p);
        Filter(a, p) + Filter(b, p);
      }
    } else {
      assert a + b == b;
    }
  }

  /** Filtering keeps a sorted sequence sorted. */
  lemma {:induction false} FilterSorted(s: seq<string>, p: string -> bool)
    requires Sorted(s)
    ensures Sorted(Filter(s, p))
  {
    if |s| > 0 {
      var tail := s[1..];
      SortedTail(s);
      FilterSorted(tail, p);
      if p(s[0]) {
        assert Below(s[0], tail) by {
          forall j | 0 <= j < |tail| ensures Le(s[0], tail[j]) {
            assert tail[j] == s[j + 1];
          }
        }
        FilterMultiset(tail, p);
        assert multiset(Filter(tail, p)) <= multiset(tail);
        BelowByMultiset(s[0], tail, Filter(tail, p));
        SortedCons(s[0], Filter(tail, p));
      }
    }
  }

  /** Filter-then-sort and sort-then-filter give the same sequence. */
  lemma SortFilterCommute(s: seq<string>, p: string -> bool)
    ensures Sort(Filter(s, p)) == Filter(Sort(s), p)
  {
    FilterSorted(Sort(s), p);
    FilterMultiset(s, p);
    FilterMultiset(Sort(s), p);
    assert multiset(Sort(Filter(s, p))) == multiset(Filter(Sort(s), p));
    SortedUnique(Sort(Filter(s, p)), Filter(Sort(s), p));
  }

  ghost predicate StrictlyIncreasing(s: seq<nat>) {
    forall i, j :: 0 <= i < j < |s| ==> s[i] < s[j]
  }

  /** A finite non-empty set of naturals has a least element. */
  lemma {:induction false} MinimumExists(ks: set<nat>)
    requires ks != {}
    ensures exists m :: m in ks && forall k :: k in ks ==> m <= k
    decreases ks
  {
    var x :| x in ks;
    var below := set k | k in ks && k < x;
    if below == {} {
      forall k | k in ks ensures x <= k {
        assert k < x ==> k in below;
      }
      assert IsLeast(ks, x);
    } else {
      assert x !in below;
      MinimumExists(below);
      var m :| m in below && forall k :: k in below ==> m <= k;
      forall k | k in ks ensures m <= k {
        assert k < x ==> k in below;
      }
      assert IsLeast(ks, m);
    }
  }

  ghost predicate IsLeast(ks: set<nat>, m: nat) {
    m in ks && forall k :: k in ks ==> m <= k
  }

  function Minimum(ks: set<nat>): (m: nat)
    requires ks != {}
    ensures m in ks && forall k :: k in ks ==> m <= k
  {
    MinimumExists(ks);
    var m :| m in ks && forall k :: k in ks ==> m <= k;
    m
  }

  /** `Object.keys` on an object whose keys are all array indices: every key
      once, in ascending numeric order. */
  function AscendingKeys(ks: set<nat>): (r: seq<nat>)
    ensures StrictlyIncreasing(r)
    ensures |r| == |ks|
    ensures forall k :: k in r <==> k in ks
    decreases ks
  {
    if ks == {} then []
    else
      var m := Minimum(ks);
      var others := ks - {m};
      assert |others| == |ks| - 1;
      var rest := AscendingKeys(others);
      IncreasingCons(m, rest);
      [m] + rest
  }

  /** A key below every element of an increasing sequence extends it. */
  lemma IncreasingCons(m: nat, rest: seq<nat>)
    requires StrictlyIncreasing(rest)
    requires forall k :: k in rest ==> m < k
    ensures StrictlyIncreasing([m] + rest)
  {
    forall i, j | 0 <= i < j < |[m] + rest| ensures ([m] + rest)[i] < ([m] + rest)[j] {
      assert rest[j - 1] in rest;
    }
  }

  /** The number of keys smaller than `p`: where `p` stands in ascending order. */
  function Rank(ks: set<nat>, p: nat): nat {
    |set q | q in ks && q < p|
  }

  lemma RankOfMinimum(ks: set<nat>)
    requires ks != {}
    ensures Rank(ks, Minimum(ks)) == 0
  {
    var m := Minimum(ks);
    assert (set q | q in ks && q < m) == {};
  }

  /** Removing the least key lowers the rank of every other key by one. */
  lemma RankStep(ks: set<nat>, m: nat, p: nat)
    requires m in ks && p in ks && m < p
    ensures Rank(ks, p) == Rank(ks - {m}, p) + 1
  {
    var below := set q | q in ks - {m} && q < p;
    var all := set q | q in ks && q < p;
    assert all == below + {m};
    assert m !in below;
  }

  /** Each key sits in the ascending enumeration at its rank. */
  lemma {:induction false} AscendingKeysRank(ks: set<nat>, p: nat)
    requires p in ks
    ensures Rank(ks, p) < |AscendingKeys(ks)|
    ensures AscendingKeys(ks)[Rank(ks, p)] == p
    decreases ks
  {
    var m := Minimum(ks);
    var others := ks - {m};
    var rest := AscendingKeys(others);
    assert AscendingKeys(ks) == [m] + rest;
    if p == m {
      RankOfMinimum(ks);
    } else {
      assert p in others;
      AscendingKeysRank(others, p);
      RankStep(ks, m, p);
      ConsIndex(m, rest, Rank(others, p));
    }
  }

  lemma ConsIndex(m: nat, rest: seq<nat>, j: nat)
    requires j < |rest|
    ensures j + 1 < |[m] + rest| && ([m] + rest)[j + 1] == rest[j]
  {
  }

  /** The values of a port-keyed table in ascending key order, the order in
      which `Object.keys` visits them: the value for key `p` sits at the rank
      of `p`. */
  function ByRank<V>(table: map<nat, V>): (r: seq<V>)
    ensures |r| == |table|
    ensures forall p :: p in table ==> Rank(table.Keys, p) < |r| && r[Rank(table.Keys, p)] == table[p]
  {
    var ports := AscendingKeys(table.Keys);
    assert forall j :: 0 <= j < |ports| ==> ports[j] in table by {
      forall j | 0 <= j < |ports| ensures ports[j] in table {
        assert ports[j] in ports;
      }
    }
    var r := seq(|ports|, j requires 0 <= j < |ports| => table[ports[j]]);
    assert |table| == |table.Keys|;
    forall p | p in table ensures Rank(table.Keys, p) < |r| && r[Rank(table.Keys, p)] == table[p] {
      AscendingKeysRank(table.Keys, p);
    }
    r
  }
}

=== FILE: patterns.dfy ===
/** The regular expressions of the navigation-page code, each as the specific
    predicate on strings it decides. */
module Patterns {
  import opened Wrappers
  import opened Strings

  /** `/\.(html|htm|tpl)$/`: an HTML page or template entry. */
  predicate IsTemplateName(name: string) {
    EndsWith(name, ".html") || EndsWith(name, ".htm") || EndsWith(name, ".tpl")
  }

  /** `\.(html|htm|tpl)$` matches at position `j`: a dot followed by one of
      the three extensions and then the end of the name. */
  ghost predicate ExtensionAt(name: string, j: int) {
    0 <= j < |name| && name[j] == '.' && name[j + 1..] in TemplateExtensions
  }

  const TemplateExtensions: set<string> := {"html", "htm", "tpl"}

  /** A page is exactly a name in which some dot is followed by one of the
      template extensions and nothing else. */
  lemma TemplateNameMeaning(name: string)
    ensures IsTemplateName(name) <==> exists j :: ExtensionAt(name, j)
  {
    if IsTemplateName(name) {
      var ext := if EndsWith(name, ".html") then ".html" else if EndsWith(name, ".htm") then ".htm" else ".tpl";
      ExtensionFromSuffix(name, ext);
    }
    if exists j :: ExtensionAt(name, j) {
      var j :| ExtensionAt(name, j);
      SuffixFromExtension(name, j);
    }
  }

  lemma ExtensionFromSuffix(name: string, ext: string)
    requires ext == ".html" || ext == ".htm" || ext == ".tpl"
    requires EndsWith(name, ext)
    ensures ExtensionAt(name, |name| - |ext|)
  {
    var j := |name| - |ext|;
    assert name[j..] == ext;
    assert name[j] == name[j..][0];
    assert name[j + 1..] == ext[1..];
  }

  lemma SuffixFromExtension(name: string, j: int)
    requires ExtensionAt(name, j)
    ensures IsTemplateName(name)
  {
    assert name[j..] == [name[j]] + name[j + 1..];
  }

  /** `/\.hot-update\.(js|json)$/`: a hot-module-replacement patch. */
  predicate IsHotUpdate(name: string) {
    EndsWith(name, ".hot-update.js") || EndsWith(name, ".hot-update.json")
  }

  /** The script bundles worth listing: `/\.js$/` and not a hot-update patch. */
  predicate IsJsBundle(name: string) {
    !IsHotUpdate(name) && EndsWith(name, ".js")
  }

  /** A script bundle is exactly a `.js` name that is not a `.hot-update.js`
      patch: the `json` alternative of the hot-update pattern never matters. */
  lemma JsBundleMeaning(name: string)
    ensures IsJsBundle(name) <==> EndsWith(name, ".js") && !EndsWith(name, ".hot-update.js")
  {
    NotJsonEnding(name);
  }

  /** A name that ends in `.js` does not end in `.json`, so the `json`
      alternative of the hot-update pattern never excludes a `.js` file. */
  lemma NotJsonEnding(name: string)
    ensures EndsWith(name, ".js") ==> !EndsWith(name, ".hot-update.json")
  {
    if EndsWith(name, ".js") && |name| >= |".hot-update.json"| {
      assert name[|name| - 1] == 's';
    }
  }

  /** No name is both a page and a script bundle: the two suffix families end
      in different characters. */
  lemma TemplateIsNotJsBundle(name: string)
    ensures !(IsTemplateName(name) && IsJsBundle(name))
  {
    if IsTemplateName(name) {
      assert name[|name| - 1] == 'l' || name[|name| - 1] == 'm';
    }
  }

  /** `/https?:/`: the public path already names a scheme. */
  predicate IsAbsoluteUrl(s: string) {
    Contains(s, "http:") || Contains(s, "https:")
  }

  /** `https?:` matches at position `i`, spelt out character by character. */
  ghost predicate SchemeAt(s: string, i: int) {
    && 0 <= i && i + 5 <= |s|
    && s[i] == 'h' && s[i + 1] == 't' && s[i + 2] == 't' && s[i + 3] == 'p'
    && (s[i + 4] == ':' || (i + 6 <= |s| && s[i + 4] == 's' && s[i + 5] == ':'))
  }

  /** The public path is absolute exactly when `http:` or `https:` occurs at
      some position, spelt out character by character. */
  lemma AbsoluteUrlMeaning(s: string)
    ensures IsAbsoluteUrl(s) <==> exists i :: SchemeAt(s, i)
  {
    if Contains(s, "http:") {
      var i :| 0 <= i <= |s| - 5 && OccursAt(s, "http:", i);
      SchemeFromOccurrence(s, "http:", i);
    } else if Contains(s, "https:") {
      var i :| 0 <= i <= |s| - 6 && OccursAt(s, "https:", i);
      SchemeFromOccurrence(s, "https:", i);
    }
    if exists i :: SchemeAt(s, i) {
      var i :| SchemeAt(s, i);
      OccurrenceFromScheme(s, i);
    }
  }

  lemma SchemeFromOccurrence(s: string, t: string, i: int)
    requires t == "http:" || t == "https:"
    requires 0 <= i <= |s| - |t| && OccursAt(s, t, i)
    ensures SchemeAt(s, i)
  {
    var w := s[i..i + |t|];
    assert w == t;
    assert w[0] == s[i] && w[1] == s[i + 1] && w[2] == s[i + 2] && w[3] == s[i + 3] && w[4] == s[i + 4];
    if t == "https:" {
      assert w[5] == s[i + 5];
    }
  }

  lemma OccurrenceFromScheme(s: string, i: int)
    requires SchemeAt(s, i)
    ensures IsAbsoluteUrl(s)
  {
    if s[i + 4] == ':' {
      assert s[i..i + 5] == "http:";
      assert OccursAt(s, "http:", i);
    } else {
      assert s[i..i + 6] == "https:";
      assert OccursAt(s, "https:", i);
    }
  }

  /** `/:\d{2,6}\//` matches at position `i` with `k` digits. */
  ghost predicate SegmentAt(s: string, i: int, k: int) {
    && 0 <= i
    && 2 <= k <= 6
    && i + k + 1 < |s|
    && s[i] == ':'
    && (forall j :: i < j <= i + k ==> IsDigit(s[j]))
    && s[i + k + 1] == '/'
  }

  ghost predicate NoSegment(s: string) {
    forall i, k :: !SegmentAt(s, i, k)
  }

  /** The leftmost match, the one a non-global `replace` rewrites. */
  ghost predicate FirstSegment(s: string, i: int, k: int) {
    SegmentAt(s, i, k) && forall i', k' :: 0 <= i' < i ==> !SegmentAt(s, i', k')
  }

  /** The number of consecutive digits starting at `from`. */
  function DigitRun(s: string, from: nat): (r: nat)
    requires from <= |s|
    ensures from + r <= |s|
    ensures forall j :: from <= j < from + r ==> IsDigit(s[j])
    ensures from + r == |s| || !IsDigit(s[from + r])
    decreases |s| - from
  {
    if from < |s| && IsDigit(s[from]) then 1 + DigitRun(s, from + 1) else 0
  }

  /** Whether the pattern matches at `i`, and with how many digits. Greedy
      `\d{2,6}` followed by `/` can only succeed with the whole digit run,
      because every shorter choice leaves a digit where `/` is needed. */
  function SegmentLengthAt(s: string, i: nat): (r: Option<nat>)
    ensures r.Some? ==> SegmentAt(s, i, r.value)
    ensures forall k :: SegmentAt(s, i, k) ==> r == Some(k)
  {
    if i < |s| && s[i] == ':' then
      var k := DigitRun(s, i + 1);
      if 2 <= k <= 6 && i + k + 1 < |s| && s[i + k + 1] == '/' then Some(k) else None
    else None
  }

  /** The leftmost match at or after `from`. */
  function FindSegment(s: string, from: nat): (r: Option<(nat, nat)>)
    ensures r.Some? ==> from <= r.value.0 && SegmentAt(s, r.value.0, r.value.1)
    ensures r.Some? ==> forall i, k :: from <= i < r.value.0 ==> !SegmentAt(s, i, k)
    ensures r.None? ==> forall i, k :: from <= i ==> !SegmentAt(s, i, k)
    decreases |s| - from
  {
    if from >= |s| then None
    else
      match SegmentLengthAt(s, from)
      case Some(k) => Some((from, k))
      case None => FindSegment(s, from + 1)
  }

  /** The first match is unique. */
  lemma FirstSegmentUnique(s: string, i: int, k: int, i': int, k': int)
    requires FirstSegment(s, i, k) && FirstSegment(s, i', k')
    ensures i == i' && k == k'
  {
    assert i == i';
    var _ := SegmentLengthAt(s, i);
  }

  /** `s.replace(/:\d{2,6}\//, repl)`: only the leftmost match is rewritten,
      everything around it is kept, and a string without a match is
      returned unchanged. */
  function ReplacePortSegment(s: string, repl: string): (r: string)
    ensures NoSegment(s) ==> r == s
    ensures forall i, k :: FirstSegment(s, i, k) ==> r == s[..i] + repl + s[i + k + 2..]
  {
    match FindSegment(s, 0)
    case None => s
    case Some((i, k)) =>
      assert FirstSegment(s, i, k);
      assert forall i', k' :: FirstSegment(s, i', k') ==> i' == i && k' == k by {
        forall i', k' | FirstSegment(s, i', k') ensures i' == i && k' == k {
          FirstSegmentUnique(s, i, k, i', k');
        }
      }
      s[..i] + repl + s[i + k + 2..]
  }

  /** `:` followed by two to six digits and `/`: a replacement that is itself
      a port segment. */
  predicate IsPortSegment(repl: string) {
    && 4 <= |repl| <= 8
    && repl[0] == ':'
    && (forall j :: 1 <= j < |repl| - 1 ==> IsDigit(repl[j]))
    && repl[|repl| - 1] == '/'
  }

  /** The characters of `s[..i] + repl + s[i + k + 2..]` by position. */
  lemma SpliceIndex(s: string, i: nat, k: nat, repl: string, p: nat)
    requires i + k + 2 <= |s|
    requires p < |s[..i] + repl + s[i + k + 2..]|
    ensures p < i ==> (s[..i] + repl + s[i + k + 2..])[p] == s[p]
    ensures i <= p < i + |repl| ==> (s[..i] + repl + s[i + k + 2..])[p] == repl[p - i]
    ensures i + |repl| <= p ==> (s[..i] + repl + s[i + k + 2..])[p] == s[p - |repl| + k + 2]
  {
  }

  /** Writing a port segment over the first match leaves a string whose first
      match is the new segment, at the same place. */
  lemma {:induction false} RewriteKeepsFirstSegment(s: string, i: nat, k: nat, repl: string)
    requires FirstSegment(s, i, k) && IsPortSegment(repl)
    ensures FirstSegment(s[..i] + repl + s[i + k + 2..], i, |repl| - 2)
  {
    var r := s[..i] + repl + s[i + k + 2..];
    var n := |repl| - 2;
    forall j | i < j <= i + n ensures IsDigit(r[j]) {
      SpliceIndex(s, i, k, repl, j);
    }
    SpliceIndex(s, i, k, repl, i);
    SpliceIndex(s, i, k, repl, i + n + 1);
    assert SegmentAt(r, i, n);
    forall i', k' | 0 <= i' < i ensures !SegmentAt(r, i', k') {
      if 2 <= k' && i' + k' + 1 < i {
        forall j | i' <= j <= i' + k' + 1 ensures r[j] == s[j] {
          SpliceIndex(s, i, k, repl, j);
        }
        assert !SegmentAt(s, i', k');
      } else if 2 <= k' && i' + k' + 1 < |r| {
        assert r[i] == ':' && !IsDigit(r[i]);
        if i' + k' + 1 > i {
          assert i' < i <= i' + k';
        }
      }
    }
  }

  /** A literal that ends in its only `:` and holds no digit or `/` (such as
      `http:` or `https:`) survives a port-segment rewrite. */
  lemma {:induction false} RewriteKeepsScheme(s: string, i: nat, k: nat, repl: string, t: string)
    requires SegmentAt(s, i, k) && IsPortSegment(repl)
    requires |t| >= 2 && t[|t| - 1] == ':'
    requires forall j :: 0 <= j < |t| - 1 ==> !IsDigit(t[j]) && t[j] != '/' && t[j] != ':'
    requires Contains(s, t)
    ensures Contains(s[..i] + repl + s[i + k + 2..], t)
  {
    var q :| 0 <= q <= |s| - |t| && OccursAt(s, t, q);
    assert forall y :: q <= y < q + |t| ==> s[y] == t[y - q] by {
      forall y | q <= y < q + |t| ensures s[y] == t[y - q] {
        assert s[q..q + |t|][y - q] == s[y];
      }
    }
    assert forall j :: 0 <= j < |t| ==> !IsDigit(t[j]);
    assert IsDigit(s[i + 1]);
    assert i + 1 < q || q + |t| <= i + 1;
    if q + |t| <= i + 1 {
      SpliceKeepsBefore(s, i, k, repl, t, q);
    } else {
      assert !IsDigit(s[q]) && s[q] != '/';
      assert q >= i + k + 2;
      SpliceKeepsAfter(s, i, k, repl, t, q);
    }
  }

  /** An occurrence that ends at or before the rewritten `:` stays in place. */
  lemma SpliceKeepsBefore(s: string, i: nat, k: nat, repl: string, t: string, q: nat)
    requires i + k + 2 <= |s| && |repl| > 0 && repl[0] == s[i]
    requires q + |t| <= i + 1
    requires forall y :: q <= y < q + |t| ==> s[y] == t[y - q]
    ensures Contains(s[..i] + repl + s[i + k + 2..], t)
  {
    var r := s[..i] + repl + s[i + k + 2..];
    forall j | 0 <= j < |t| ensures r[q + j] == t[j] {
      SpliceIndex(s, i, k, repl, q + j);
    }
    assert r[q..q + |t|] == t;
    assert OccursAt(r, t, q);
  }

  /** An occurrence after the rewritten segment moves by the change in length. */
  lemma SpliceKeepsAfter(s: string, i: nat, k: nat, repl: string, t: string, q: nat)
    requires i + k + 2 <= q && q + |t| <= |s|
    requires forall y :: q <= y < q + |t| ==> s[y] == t[y - q]
    ensures Contains(s[..i] + repl + s[i + k + 2..], t)
  {
    var r := s[..i] + repl + s[i + k + 2..];
    var q' := q - k - 2 + |repl|;
    forall j | 0 <= j < |t| ensures r[q' + j] == t[j] {
      SpliceIndex(s, i, k, repl, q' + j);
    }
    assert r[q'..q' + |t|] == t;
    assert OccursAt(r, t, q');
  }

  /** `http:` and `https:` are literals of the kind `RewriteKeepsScheme` keeps. */
  lemma SchemeLiteral(t: string)
    requires t == "http:" || t == "https:"
    ensures |t| >= 2 && t[|t| - 1] == ':'
    ensures forall j :: 0 <= j < |t| - 1 ==> !IsDigit(t[j]) && t[j] != '/' && t[j] != ':'
  {
  }

  /** The parts of a splice that lie outside the rewritten segment. */
  lemma SpliceParts(s: string, i: nat, k: nat, repl: string)
    requires i + k + 2 <= |s|
    ensures (s[..i] + repl + s[i + k + 2..])[..i] == s[..i]
    ensures (s[..i] + repl + s[i + k + 2..])[i + |repl|..] == s[i + k + 2..]
  {
  }

  /** Rewriting with a port segment twice is rewriting once. */
  lemma ReplaceIdempotent(s: string, repl: string)
    requires IsPortSegment(repl)
    ensures ReplacePortSegment(ReplacePortSegment(s, repl), repl) == ReplacePortSegment(s, repl)
  {
    var f := FindSegment(s, 0);
    if f.Some? {
      var i, k := f.value.0, f.value.1;
      assert FirstSegment(s, i, k);
      var r := s[..i] + repl + s[i + k + 2..];
      ReplaceAt(s, repl, i, k);
      RewriteKeepsFirstSegment(s, i, k, repl);
      ReplaceAt(r, repl, i, |repl| - 2);
      SpliceParts(s, i, k, repl);
    }
  }

  lemma ReplaceAt(s: string, repl: string, i: int, k: int)
    requires FirstSegment(s, i, k)
    ensures 0 <= i && i + k + 2 <= |s|
    ensures ReplacePortSegment(s, repl) == s[..i] + repl + s[i + k + 2..]
  {
  }

  /** A port-segment rewrite keeps an absolute URL absolute. */
  lemma ReplaceKeepsAbsolute(s: string, repl: string)
    requires IsAbsoluteUrl(s) && IsPortSegment(repl)
    ensures IsAbsoluteUrl(ReplacePortSegment(s, repl))
  {
    var f := FindSegment(s, 0);
    if f.Some? {
      var i, k := f.value.0, f.value.1;
      assert FirstSegment(s, i, k);
      var r := s[..i] + repl + s[i + k + 2..];
      assert ReplacePortSegment(s, repl) == r;
      var t := if Contains(s, "http:") then "http:" else "https:";
      SchemeLiteral(t);
      RewriteKeepsScheme(s, i, k, repl, t);
      assert Contains(r, t);
    }
  }
}

=== FILE: publicpath.dfy ===
/** `normalizePublicPath` as lib/view.js and lib/nav.js write it: an absolute
    public path gets its port rewritten, a relative one is made absolute on
    the second local address. */
module PublicPath {
  import opened Wrappers
  import opened Strings
  import opened Patterns
  import Utils

  /** The text that replaces `:<digits>/`: the new port, slash kept. */
  function PortSegment(port: nat): string {
    ":" + DecimalString(port) + "/"
  }

  function Normalize(publicPath: string, port: nat, interfaces: Utils.Interfaces): (r: string)
    ensures IsAbsoluteUrl(publicPath) && NoSegment(publicPath) ==> r == publicPath
    ensures forall i, k :: IsAbsoluteUrl(publicPath) && FirstSegment(publicPath, i, k) ==>
              r == publicPath[..i] + ":" + DecimalString(port) + "/" + publicPath[i + k + 2..]
    ensures !IsAbsoluteUrl(publicPath) ==>
              r == "http://" + Utils.GetIp(interfaces, Some(2)) + ":" + DecimalString(port) + "/"
                   + DropLeadingSlash(publicPath)
  {
    if IsAbsoluteUrl(publicPath) then ReplacePortSegment(publicPath, PortSegment(port))
    else "http://" + Utils.GetIp(interfaces, Some(2)) + ":" + DecimalString(port) + "/" + DropLeadingSlash(publicPath)
  }

  lemma PortSegmentShape(port: nat)
    requires 10 <= port < 1000000
    ensures IsPortSegment(PortSegment(port))
  {
    PortDigits(port);
    var d := DecimalString(port);
    var ps := PortSegment(port);
    forall j | 1 <= j < |ps| - 1 ensures IsDigit(ps[j]) {
      assert ps[j] == d[j - 1];
    }
  }

  /** Normalising an absolute public path a second time with the same port
      changes nothing, provided the port prints with two to six digits (a
      shorter port is not recognised by the pattern and a later `:nn/` would
      be rewritten instead). */
  lemma NormalizeIdempotent(publicPath: string, port: nat, interfaces: Utils.Interfaces)
    requires IsAbsoluteUrl(publicPath) && 10 <= port < 1000000
    ensures Normalize(Normalize(publicPath, port, interfaces), port, interfaces)
            == Normalize(publicPath, port, interfaces)
  {
    PortSegmentShape(port);
    var r := ReplacePortSegment(publicPath, PortSegment(port));
    ReplaceKeepsAbsolute(publicPath, PortSegment(port));
    ReplaceIdempotent(publicPath, PortSegment(port));
    assert Normalize(publicPath, port, interfaces) == r;
    assert Normalize(r, port, interfaces) == ReplacePortSegment(r, PortSegment(port));
  }
}

=== FILE: strings.dfy ===
/** Strings are `seq<char>`; this module holds the few string operations the
    regular expressions of the tool reduce to, and the decimal rendering of a
    port number (`${port}` in a template literal). */
module Strings {

  predicate StartsWith(s: string, prefix: string) {
    |prefix| <= |s| && s[..|prefix|] == prefix
  }

  predicate EndsWith(s: string, suffix: string) {
    |suffix| <= |s| && s[|s| - |suffix|..] == suffix
  }

  /** `t` occurs somewhere in `s` (an unanchored regular expression without
      metacharacters). */
  predicate Contains(s: string, t: string) {
    exists i | 0 <= i <= |s| - |t| :: OccursAt(s, t, i)
  }

  predicate OccursAt(s: string, t: string, i: nat)
    requires i + |t| <= |s|
  {
    s[i..i + |t|] == t
  }

  /** `s.replace(/^\//, '')`: at most one leading slash is removed. */
  function DropLeadingSlash(s: string): (r: string)
    ensures StartsWith(s, "/") ==> s == "/" + r
    ensures !StartsWith(s, "/") ==> r == s
  {
    if |s| > 0 && s[0] == '/' then s[1..] else s
  }

  /** `s.replace(/\/$/, '')`: at most one trailing slash is removed. */
  function DropTrailingSlash(s: string): (r: string)
    ensures EndsWith(s, "/") ==> s == r + "/"
    ensures !EndsWith(s, "/") ==> r == s
  {
    if |s| > 0 && s[|s| - 1] == '/' then s[..|s| - 1] else s
  }

  /** The slash-normalising URL join of the navigation pages:
      `base.replace(/\/$/, '') + '/' + file.replace(/^\//, '')`. */
  function JoinUrl(base: string, file: string): (r: string)
    ensures !EndsWith(base, "/") && !StartsWith(file, "/") ==> r == base + "/" + file
    ensures EndsWith(base, "/") && !StartsWith(file, "/") ==> r == base + file
    ensures !EndsWith(base, "/") && StartsWith(file, "/") ==> r == base + file
    ensures EndsWith(base, "/") && StartsWith(file, "/") ==> r == base + file[1..]
  {
    DropTrailingSlash(base) + "/" + DropLeadingSlash(file)
  }

  /** The two spellings of the same location give the same URL. */
  lemma JoinUrlExample()
    ensures JoinUrl("http://h:9000/", "/a.js") == "http://h:9000/a.js"
    ensures JoinUrl("http://h:9000", "a.js") == "http://h:9000/a.js"
  {
    assert "http://h:9000/"[..13] == "http://h:9000";
    assert "/a.js"[1..] == "a.js";
  }

  predicate IsDigit(c: char) {
    '0' <= c <= '9'
  }

  function DigitChar(d: nat): (c: char)
    requires d < 10
    ensures IsDigit(c) && DigitValue(c) == d
  {
    "0123456789"[d]
  }

  function DigitValue(c: char): nat
    requires IsDigit(c)
  {
    c as nat - '0' as nat
  }

  /** The number a string of decimal digits denotes. */
  function ParseDecimal(s: string): nat
    requires forall i :: 0 <= i < |s| ==> IsDigit(s[i])
  {
    if |s| == 0 then 0 else ParseDecimal(s[..|s| - 1]) * 10 + DigitValue(s[|s| - 1])
  }

  /** The decimal rendering of a non-negative integer, as JavaScript prints a
      port number: digits only, no leading zero, and it reads back as `n`. */
  function DecimalString(n: nat): (r: string)
    ensures |r| >= 1
    ensures forall i :: 0 <= i < |r| ==> IsDigit(r[i])
    ensures r[0] == '0' ==> r == "0"
    ensures ParseDecimal(r) == n
  {
    if n < 10 then [DigitChar(n)]
    else
      var r := DecimalString(n / 10) + [DigitChar(n % 10)];
      assert r[..|r| - 1] == DecimalString(n / 10);
      r
  }

  function Pow10(k: nat): nat {
    if k == 0 then 1 else 10 * Pow10(k - 1)
  }

  /** A number has at most `k` digits exactly when it is below `10^k`. */
  lemma {:induction false} DecimalStringLength(n: nat, k: nat)
    requires k >= 1
    ensures |DecimalString(n)| <= k <==> n < Pow10(k)
  {
    if n >= 10 {
      if k == 1 {
        assert |DecimalString(n)| >= 2;
        assert Pow10(1) == 10;
      } else {
        DecimalStringLength(n / 10, k - 1);
      }
    } else {
      PowPositive(k);
    }
  }

  lemma {:induction false} PowPositive(k: nat)
    requires k >= 1
    ensures Pow10(k) >= 10
  {
    if k > 1 {
      PowPositive(k - 1);
    }
  }

  /** Two to six digits exactly when the number lies in 10..999999. */
  lemma PortDigits(n: nat)
    ensures 10 <= n < 1000000 <==> 2 <= |DecimalString(n)| <= 6
  {
    DecimalStringLength(n, 1);
    DecimalStringLength(n, 6);
    assert Pow10(6) == 1000000;
  }
}

=== FILE: tool.dfy ===
/** lib/tool.js, `WebpackTool`: the per-configuration dev-server plan of
    `server`, the done-event bookkeeping (a port-keyed result table and a
    one-shot latch that starts the debug server), and the data of its own
    `renderDebugTemplate`. */
module Tool {
  import opened Wrappers
  import opened Strings
  import opened Ordering
  import opened Patterns
  import opened Build
  import PublicPath
  import Utils
  import View

  /** The base port when the tool's configuration names none. */
  const DefaultPort: nat := 9000

  /** `merge({ port: 9000, ... }, config).port`. */
  function BasePort(configured: Option<nat>): (r: nat)
    ensures configured.None? ==> r == 9000
    ensures configured.Some? ==> r == configured.value
  {
    if configured.Some? then configured.value else DefaultPort
  }

  /** The argument of `server`: one configuration or an array of them. */
  datatype ConfigArg = Single(config: WebpackConfig) | Many(configs: seq<WebpackConfig>)

  function ConfigList(arg: ConfigArg): seq<WebpackConfig> {
    match arg
    case Single(c) => [c]
    case Many(cs) => cs
  }

  /** The options `server` passes to `createWebpackServer`. */
  datatype ServerOptions = ServerOptions(hot: Option<bool>, port: nat, publicPath: string)

  /** `hot === undefined || hot` in `createWebpackServer`. */
  predicate UsesHotMiddleware(hot: Option<bool>) {
    hot.None? || hot.value
  }

  function Options(basePort: nat, index: nat, config: WebpackConfig): ServerOptions {
    ServerOptions(Some(config.target != Some("node")), basePort + index, config.publicPath)
  }

  /** One dev server per configuration, in order. */
  function Plan(basePort: nat, configs: seq<WebpackConfig>): (r: seq<ServerOptions>)
    ensures |r| == |configs|
    ensures forall i :: 0 <= i < |r| ==>
              && r[i].port == basePort + i
              && r[i].publicPath == configs[i].publicPath
              && r[i].hot == Some(configs[i].target != Some("node"))
  {
    seq(|configs|, i requires 0 <= i < |configs| => Options(basePort, i, configs[i]))
  }

  /** Configuration `i` is served on `basePort + i`, with its own public path,
      and gets hot reloading exactly when its target is not `node`. */
  lemma PlanServesEachConfig(basePort: nat, configs: seq<WebpackConfig>, i: nat)
    requires i < |configs|
    ensures UsesHotMiddleware(Plan(basePort, configs)[i].hot) <==> configs[i].target != Some("node")
  {
  }

  /** What `server` starts for its argument: one dev server per configuration
      (a single configuration counts as a list of one), the first on the
      configured port or 9000, the others on the following ports. */
  lemma ServerPlan(configured: Option<nat>, arg: ConfigArg)
    ensures arg.Single? ==> |Plan(BasePort(configured), ConfigList(arg))| == 1
    ensures arg.Single? ==> Plan(BasePort(configured), ConfigList(arg))[0].publicPath == arg.config.publicPath
    ensures arg.Many? ==> |Plan(BasePort(configured), ConfigList(arg))| == |arg.configs|
    ensures forall i :: 0 <= i < |Plan(BasePort(configured), ConfigList(arg))| ==>
              Plan(BasePort(configured), ConfigList(arg))[i].port
                == (if configured.Some? then configured.value else 9000) + i
  {
  }

  /** An unset `hot` option counts as enabled. */
  lemma UnsetHotIsEnabled()
    ensures UsesHotMiddleware(None)
  {
  }

  /** The debug server listens one port past the port after the last dev
      server. */
  function DebugPort(basePort: nat, count: nat): nat {
    basePort + count + 1
  }

  /** The dev servers get distinct ports and none of them is the debug port. */
  lemma PortsDistinct(basePort: nat, configs: seq<WebpackConfig>)
    ensures forall i, j :: 0 <= i < j < |configs| ==> Plan(basePort, configs)[i].port != Plan(basePort, configs)[j].port
    ensures forall i :: 0 <= i < |configs| ==> Plan(basePort, configs)[i].port != DebugPort(basePort, |configs|)
  {
  }

  /** What the done handler stores for a port. */
  datatype BuildRecord = BuildRecord(port: nat, stat: Stat, config: WebpackConfig, files: seq<string>)

  function RecordOf(port: nat, stat: Stat, config: WebpackConfig): BuildRecord {
    BuildRecord(port, stat, config, stat.assets)
  }

  /** The tool: its base port and the configuration list of one `server` call. */
  datatype Tool = Tool(basePort: nat, configs: seq<WebpackConfig>)

  /** `buildCount` (local to the `server` call), `webpackBuildResult` and
      `isStartDebugServer`. */
  datatype ToolState = ToolState(buildCount: nat, results: map<nat, BuildRecord>, debugStarted: bool)

  const Initial: ToolState := ToolState(0, map[], false)

  /** A `done` callback of the compiler of configuration `index`, with the
      stats of the finished compilation. */
  datatype DoneEvent = DoneEvent(index: nat, stats: seq<Stat>)

  predicate ValidEvent(tool: Tool, ev: DoneEvent) {
    ev.index < |tool.configs|
  }

  function PortOf(tool: Tool, ev: DoneEvent): nat {
    tool.basePort + ev.index
  }

  /** The `stats.forEach` writes: every stat overwrites the port's entry, so
      the last one stays, and without stats nothing is written. */
  function StoreStats(results: map<nat, BuildRecord>, port: nat, config: WebpackConfig, stats: seq<Stat>)
    : (r: map<nat, BuildRecord>)
    ensures stats == [] ==> r == results
    ensures stats != [] ==> r == results[port := RecordOf(port, stats[|stats| - 1], config)]
    decreases |stats|
  {
    if stats == [] then results
    else StoreStats(results[port := RecordOf(port, stats[0], config)], port, config, stats[1..])
  }

  /** One `done` event: count it, store its result, and start the debug
      server when the latch is still open and the count is a multiple of the
      number of configurations. The second component is the port of the
      debug server started by this event, if any. */
  function OnDone(tool: Tool, st: ToolState, ev: DoneEvent): (r: (ToolState, Option<nat>))
    requires ValidEvent(tool, ev)
    ensures r.0.buildCount == st.buildCount + 1
    ensures forall p :: p != PortOf(tool, ev) ==>
              (p in r.0.results <==> p in st.results) &&
              (p in st.results ==> r.0.results[p] == st.results[p])
    ensures ev.stats == [] ==> r.0.results == st.results
    ensures ev.stats != [] ==>
              && PortOf(tool, ev) in r.0.results
              && r.0.results[PortOf(tool, ev)] ==
                   RecordOf(PortOf(tool, ev), ev.stats[|ev.stats| - 1], tool.configs[ev.index])
    ensures r.1.Some? <==> !st.debugStarted && (st.buildCount + 1) % |tool.configs| == 0
    ensures r.1.Some? ==> r.1.value == DebugPort(tool.basePort, |tool.configs|)
    ensures r.0.debugStarted <==> st.debugStarted || r.1.Some?
  {
    var count := st.buildCount + 1;
    var port := PortOf(tool, ev);
    var results := StoreStats(st.results, port, tool.configs[ev.index], ev.stats);
    if !st.debugStarted && count % |tool.configs| == 0 then
      (ToolState(count, results, true), Some(DebugPort(tool.basePort, |tool.configs|)))
    else
      (ToolState(count, results, st.debugStarted), None)
  }

  predicate ValidEvents(tool: Tool, events: seq<DoneEvent>) {
    forall j :: 0 <= j < |events| ==> ValidEvent(tool, events[j])
  }

  /** The state after a sequence of `done` events, and for each event the
      debug-server start it caused. */
  function Run(tool: Tool, events: seq<DoneEvent>): (r: (ToolState, seq<Option<nat>>))
    requires ValidEvents(tool, events)
    ensures r.0.buildCount == |events|
    ensures |r.1| == |events|
    ensures r.0.debugStarted <==> exists j :: 0 <= j < |r.1| && r.1[j].Some?
  {
    if |events| == 0 then (Initial, [])
    else
      var prev := Run(tool, events[..|events| - 1]);
      var next := OnDone(tool, prev.0, events[|events| - 1]);
      var effects := prev.1 + [next.1];
      assert forall j :: 0 <= j < |prev.1| ==> effects[j] == prev.1[j];
      assert effects[|prev.1|] == next.1;
      (next.0, effects)
  }

  /** The latch: after `k` events the counter is `k`; the debug server is
      started by exactly the event that brings the counter to the number of
      configurations, whichever configurations the events came from, on the
      debug port, and by no other event. */
  lemma {:induction false} RunLatch(tool: Tool, events: seq<DoneEvent>)
    requires ValidEvents(tool, events)
    ensures Run(tool, events).0.buildCount == |events|
    ensures |Run(tool, events).1| == |events|
    ensures Run(tool, events).0.debugStarted <==> |events| > 0 && |events| >= |tool.configs|
    ensures forall j :: 0 <= j < |events| ==> (Run(tool, events).1[j].Some? <==> j + 1 == |tool.configs|)
    ensures forall j :: 0 <= j < |events| && Run(tool, events).1[j].Some? ==>
              Run(tool, events).1[j].value == DebugPort(tool.basePort, |tool.configs|)
  {
    if |events| > 0 {
      var k := |events|;
      var init := events[..k - 1];
      PrefixValid(tool, events);
      RunLatch(tool, init);
      var n := |tool.configs|;
      assert ValidEvent(tool, events[k - 1]);
      var prev := Run(tool, init);
      var next := OnDone(tool, prev.0, events[k - 1]);
      assert Run(tool, events) == (next.0, prev.1 + [next.1]);
      assert prev.0.buildCount == k - 1;
      assert !prev.0.debugStarted <==> k <= n;
      FirstMultiple(k, n);
      assert next.1.Some? <==> k == n;
      var effects := prev.1 + [next.1];
      assert forall j :: 0 <= j < k - 1 ==> effects[j] == prev.1[j];
      assert effects[k - 1] == next.1;
    }
  }

  /** Counting up from one, the first multiple of `n` reached is `n` itself. */
  lemma FirstMultiple(k: nat, n: nat)
    requires 1 <= k && 1 <= n
    ensures k <= n ==> (k % n == 0 <==> k == n)
  {
    if k < n {
      assert k % n == k;
    }
  }

  /** The debug server is started at most once. */
  lemma DebugServerStartsOnce(tool: Tool, events: seq<DoneEvent>, j: nat, j': nat)
    requires ValidEvents(tool, events)
    requires j < |events| && j' < |events|
    requires StartedDebugServer(tool, events, j) && StartedDebugServer(tool, events, j')
    ensures j == j'
  {
    RunLatch(tool, events);
  }

  /** Event `j` of the run started the debug server. */
  predicate StartedDebugServer(tool: Tool, events: seq<DoneEvent>, j: nat)
    requires ValidEvents(tool, events)
  {
    var effects := Run(tool, events).1;
    j < |effects| && effects[j].Some?
  }

  lemma PrefixValid(tool: Tool, events: seq<DoneEvent>)
    requires ValidEvents(tool, events) && |events| > 0
    ensures ValidEvents(tool, events[..|events| - 1])
  {
    var init := events[..|events| - 1];
    forall j | 0 <= j < |init| ensures ValidEvent(tool, init[j]) {
      assert init[j] == events[j];
    }
  }

  /** Some event of the run for port `p` carried stats. */
  predicate Written(tool: Tool, events: seq<DoneEvent>, p: nat) {
    exists j :: 0 <= j < |events| && PortOf(tool, events[j]) == p && events[j].stats != []
  }

  /** Over a run, a port holds a result exactly when some event for it
      carried stats. */
  lemma {:induction false} RunResultPorts(tool: Tool, events: seq<DoneEvent>)
    requires ValidEvents(tool, events)
    ensures forall p :: p in Run(tool, events).0.results <==> Written(tool, events, p)
  {
    if |events| > 0 {
      var k := |events| - 1;
      var init := events[..k];
      PrefixValid(tool, events);
      RunResultPorts(tool, init);
      var last := events[k];
      var next := OnDone(tool, Run(tool, init).0, last);
      assert Run(tool, events).0 == next.0;
      forall p ensures p in next.0.results <==> Written(tool, events, p) {
        if Written(tool, init, p) {
          var j :| 0 <= j < |init| && PortOf(tool, init[j]) == p && init[j].stats != [];
          assert events[j] == init[j];
        }
        if Written(tool, events, p) && !(PortOf(tool, last) == p && last.stats != []) {
          var j :| 0 <= j < |events| && PortOf(tool, events[j]) == p && events[j].stats != [];
          assert j < k && init[j] == events[j];
        }
      }
    }
  }

  /** Event `j` carried stats and no later event for its port carried any. */
  predicate LastWriter(tool: Tool, events: seq<DoneEvent>, j: nat)
    requires j < |events|
  {
    && events[j].stats != []
    && forall j' :: j < j' < |events| && PortOf(tool, events[j']) == PortOf(tool, events[j]) ==> events[j'].stats == []
  }

  /** Last write wins over a run: a port holds the record of the last event
      for it that carried stats, built from that event's last stat. */
  lemma {:induction false} RunResultValues(tool: Tool, events: seq<DoneEvent>, j: nat)
    requires ValidEvents(tool, events)
    requires j < |events| && LastWriter(tool, events, j)
    ensures PortOf(tool, events[j]) in Run(tool, events).0.results
    ensures Run(tool, events).0.results[PortOf(tool, events[j])] ==
              RecordOf(PortOf(tool, events[j]), events[j].stats[|events[j].stats| - 1],
                       tool.configs[events[j].index])
  {
    var k := |events| - 1;
    var init := events[..k];
    PrefixValid(tool, events);
    var last := events[k];
    var next := OnDone(tool, Run(tool, init).0, last);
    assert Run(tool, events).0 == next.0;
    if j < k {
      assert init[j] == events[j];
      LastWriterPrefix(tool, events, j);
      RunResultValues(tool, init, j);
    }
  }

  /** A last writer before the final event is still one without it. */
  lemma LastWriterPrefix(tool: Tool, events: seq<DoneEvent>, j: nat)
    requires j + 1 < |events| && LastWriter(tool, events, j)
    ensures LastWriter(tool, events[..|events| - 1], j)
  {
    var init := events[..|events| - 1];
    assert init[j] == events[j];
    forall j' | j < j' < |init| && PortOf(tool, init[j']) == PortOf(tool, init[j])
      ensures init[j'].stats == []
    {
      assert init[j'] == events[j'];
    }
  }

  /** `normalizePublicPath` as lib/tool.js writes it: the port segment is
      replaced by `:` and the port with no slash after it. */
  function NormalizeAsWritten(publicPath: string, port: nat, interfaces: Utils.Interfaces): (r: string)
    ensures IsAbsoluteUrl(publicPath) && NoSegment(publicPath) ==> r == publicPath
    ensures forall i, k :: IsAbsoluteUrl(publicPath) && FirstSegment(publicPath, i, k) ==>
              r == publicPath[..i] + ":" + DecimalString(port) + publicPath[i + k + 2..]
    ensures !IsAbsoluteUrl(publicPath) ==> r == PublicPath.Normalize(publicPath, port, interfaces)
  {
    if IsAbsoluteUrl(publicPath) then ReplacePortSegment(publicPath, ":" + DecimalString(port))
    else "http://" + Utils.GetIp(interfaces, Some(2)) + ":" + DecimalString(port) + "/" + DropLeadingSlash(publicPath)
  }

  /** Against the copies in lib/view.js and lib/nav.js, the rewrite of an
      absolute public path loses exactly the `/` after the new port. */
  lemma AsWrittenLosesSlash(publicPath: string, port: nat, interfaces: Utils.Interfaces, i: nat, k: nat)
    requires IsAbsoluteUrl(publicPath) && FirstSegment(publicPath, i, k)
    ensures var cut := i + 1 + |DecimalString(port)|;
            var r := NormalizeAsWritten(publicPath, port, interfaces);
            cut <= |r| &&
            PublicPath.Normalize(publicPath, port, interfaces) == r[..cut] + "/" + r[cut..]
  {
    var d := DecimalString(port);
    var rest := publicPath[i + k + 2..];
    var r := publicPath[..i] + ":" + d + rest;
    var cut := i + 1 + |d|;
    assert r[..cut] == publicPath[..i] + ":" + d;
    assert r[cut..] == rest;
  }

  /** The input that shows it: `http://h:8000/pub/` served on port 9001 comes
      out as `http://h:9001pub/`, where the other copies give
      `http://h:9001/pub/`. */
  lemma AsWrittenExample(pp: string, interfaces: Utils.Interfaces)
    requires pp == "http://h:8000/pub/"
    ensures NormalizeAsWritten(pp, 9001, interfaces) == "http://h:9001pub/"
  {
    ExampleSegment(pp);
    ExampleParts(pp);
    Port9001();
    assert NormalizeAsWritten(pp, 9001, interfaces) == pp[..8] + ":" + DecimalString(9001) + pp[14..];
    ExampleSplice(pp[..8], DecimalString(9001), pp[14..]);
  }

  /** The copies in lib/view.js and lib/nav.js keep the slash on the same
      input. */
  lemma CorrectedExample(pp: string, interfaces: Utils.Interfaces)
    requires pp == "http://h:8000/pub/"
    ensures PublicPath.Normalize(pp, 9001, interfaces) == "http://h:9001/pub/"
  {
    ExampleSegment(pp);
    ExampleParts(pp);
    Port9001();
    assert PublicPath.Normalize(pp, 9001, interfaces) == pp[..8] + ":" + DecimalString(9001) + "/" + pp[14..];
    ExampleSplice(pp[..8], DecimalString(9001), pp[14..]);
  }

  lemma ExampleSegment(pp: string)
    requires pp == "http://h:8000/pub/"
    ensures IsAbsoluteUrl(pp)
    ensures FirstSegment(pp, 8, 4)
  {
    assert OccursAt(pp, "http:", 0);
    assert SegmentAt(pp, 8, 4);
    forall i', k' | 0 <= i' < 8 ensures !SegmentAt(pp, i', k') {
      if i' == 4 {
        assert !IsDigit(pp[5]);
      } else {
        assert pp[i'] != ':';
      }
    }
  }

  lemma ExampleParts(pp: string)
    requires pp == "http://h:8000/pub/"
    ensures pp[..8] == "http://h" && pp[14..] == "pub/"
  {
  }

  lemma ExampleSplice(a: string, d: string, b: string)
    requires a == "http://h" && d == "9001" && b == "pub/"
    ensures a + ":" + d + b == "http://h:9001pub/"
    ensures a + ":" + d + "/" + b == "http://h:9001/pub/"
  {
  }

  lemma Port9001()
    ensures DecimalString(9001) == "9001"
  {
    assert DecimalString(9) == "9";
    assert DecimalString(90) == DecimalString(9) + ['0'];
    assert DecimalString(900) == DecimalString(90) + ['0'];
    assert DecimalString(9001) == DecimalString(900) + ['1'];
  }

  /** Every stored file, unfiltered and in stored order, linked by plain
      concatenation to the public path as this file normalises it. */
  function Entry(record: BuildRecord, interfaces: Utils.Interfaces): (r: View.BuildFiles)
    ensures r.name == BuildName(record.stat)
    ensures |r.files| == |record.files|
    ensures forall m :: 0 <= m < |r.files| ==>
              r.files[m].name == record.files[m] &&
              StartsWith(r.files[m].url, NormalizeAsWritten(record.config.publicPath, record.port, interfaces)) &&
              EndsWith(r.files[m].url, record.files[m]) &&
              |r.files[m].url| == |NormalizeAsWritten(record.config.publicPath, record.port, interfaces)| + |record.files[m]|
  {
    var base := NormalizeAsWritten(record.config.publicPath, record.port, interfaces);
    var links := seq(|record.files|, m requires 0 <= m < |record.files| =>
                   View.FileLink(record.files[m], base + record.files[m]));
    assert forall m :: 0 <= m < |links| ==> (base + record.files[m])[..|base|] == base;
    assert forall m :: 0 <= m < |links| ==>
             (base + record.files[m])[|base + record.files[m]| - |record.files[m]|..] == record.files[m];
    View.BuildFiles(BuildName(record.stat), links)
  }

  /** `renderDebugTemplate` of lib/tool.js: one entry per stored result, the
      result for port `p` at the position of `p` among the stored ports in
      ascending order. */
  function RenderDebugData(results: map<nat, BuildRecord>, interfaces: Utils.Interfaces): (r: seq<View.BuildFiles>)
    ensures |r| == |results|
    ensures forall p :: p in results ==>
              Rank(results.Keys, p) < |r| && r[Rank(results.Keys, p)] == Entry(results[p], interfaces)
  {
    var entries := map p | p in results :: Entry(results[p], interfaces);
    assert entries.Keys == results.Keys;
    assert |entries| == |entries.Keys| == |results.Keys| == |results|;
    ByRank(entries)
  }
}

=== FILE: utils.dfy ===
/** `utils.getIp`: choose a local IPv4 address from the network interface
    table. The table, which the tool reads from the operating system, is a
    parameter here. */
module Utils {
  import opened Wrappers
  import opened Ordering

  datatype NetAddress = NetAddress(family: string, address: string)

  /** Interface name to its addresses, as `os.networkInterfaces()` reports. */
  type Interfaces = map<string, seq<NetAddress>>

  const Loopback: string := "127.0.0.1"

  predicate IsIPv4(e: NetAddress) {
    e.family == "IPv4"
  }

  /** The addresses of the IPv4 entries, in the order of the entries. */
  function IPv4Addresses(entries: seq<NetAddress>): (r: seq<string>)
    ensures |r| <= |entries|
    ensures forall a :: a in r <==> exists e :: e in entries && IsIPv4(e) && e.address == a
  {
    if |entries| == 0 then []
    else
      var init := entries[..|entries| - 1];
      var last := entries[|entries| - 1];
      assert entries == init + [last];
      IPv4Addresses(init) + (if IsIPv4(last) then [last.address] else [])
  }

  /** The address of each entry, in order. */
  function Addresses(entries: seq<NetAddress>): seq<string> {
    seq(|entries|, j requires 0 <= j < |entries| => entries[j].address)
  }

  lemma AddressesAppend(a: seq<NetAddress>, b: seq<NetAddress>)
    ensures Addresses(a + b) == Addresses(a) + Addresses(b)
  {
  }

  /** The per-interface collection is the address list of the IPv4 entries
      selected by `filter`. */
  lemma {:induction false} IPv4AddressesIsSelection(entries: seq<NetAddress>)
    ensures IPv4Addresses(entries) == Addresses(Filter(entries, IsIPv4))
    decreases |entries|
  {
    if |entries| > 0 {
      var init := entries[..|entries| - 1];
      var last := entries[|entries| - 1];
      assert entries == init + [last];
      IPv4AddressesIsSelection(init);
      FilterAppend(init, [last], IsIPv4);
      assert Filter([last], IsIPv4) == if IsIPv4(last) then [last] else [];
      AddressesAppend(Filter(init, IsIPv4), Filter([last], IsIPv4));
    }
  }

  /** The entries of one interface; a missing interface has none. */
  function EntriesOf(interfaces: Interfaces, name: string): seq<NetAddress> {
    if name in interfaces then interfaces[name] else []
  }

  /** The candidate list: the IPv4 addresses of `en0`, then those of `en1`. */
  function CandidateIps(interfaces: Interfaces): (r: seq<string>)
    ensures r == Addresses(Filter(EntriesOf(interfaces, "en0") + EntriesOf(interfaces, "en1"), IsIPv4))
  {
    CandidatesAreOneSelection(interfaces);
    IPv4Addresses(EntriesOf(interfaces, "en0")) + IPv4Addresses(EntriesOf(interfaces, "en1"))
  }

  /** Collecting `en0` and then `en1` is one IPv4 selection over the entries
      of `en0` followed by those of `en1`. */
  lemma CandidatesAreOneSelection(interfaces: Interfaces)
    ensures IPv4Addresses(EntriesOf(interfaces, "en0")) + IPv4Addresses(EntriesOf(interfaces, "en1"))
            == Addresses(Filter(EntriesOf(interfaces, "en0") + EntriesOf(interfaces, "en1"), IsIPv4))
  {
    var en0, en1 := EntriesOf(interfaces, "en0"), EntriesOf(interfaces, "en1");
    IPv4AddressesIsSelection(en0);
    IPv4AddressesIsSelection(en1);
    FilterAppend(en0, en1, IsIPv4);
    AddressesAppend(Filter(en0, IsIPv4), Filter(en1, IsIPv4));
  }

  /** The two collection loops of `getIp`: only IPv4 entries are pushed, all
      of `en0` before any of `en1`, each in its interface's order, and no
      other interface contributes. */
  method CollectIps(interfaces: Interfaces) returns (ips: seq<string>)
    ensures ips == IPv4Addresses(EntriesOf(interfaces, "en0")) + IPv4Addresses(EntriesOf(interfaces, "en1"))
  {
    ips := [];
    if "en0" in interfaces {
      var en0 := interfaces["en0"];
      var i := 0;
      while i < |en0|
        invariant 0 <= i <= |en0|
        invariant ips == IPv4Addresses(en0[..i])
      {
        assert en0[..i + 1][..i] == en0[..i];
        if en0[i].family == "IPv4" {
          ips := ips + [en0[i].address];
        }
        i := i + 1;
      }
      assert en0[..|en0|] == en0;
    }
    var first := ips;
    if "en1" in interfaces {
      var en1 := interfaces["en1"];
      var i := 0;
      while i < |en1|
        invariant 0 <= i <= |en1|
        invariant ips == first + IPv4Addresses(en1[..i])
      {
        assert en1[..i + 1][..i] == en1[..i];
        if en1[i].family == "IPv4" {
          ips := ips + [en1[i].address];
        }
        i := i + 1;
      }
      assert en1[..|en1|] == en1;
    }
  }

  /** `getIp(position)`: the `position`-th candidate (1-based) when there is
      one, otherwise the first candidate, otherwise the loopback address.
      An absent position behaves like an out-of-range one. */
  function GetIp(interfaces: Interfaces, position: Option<int>): (r: string)
    ensures r in CandidateIps(interfaces) || r == Loopback
    ensures CandidateIps(interfaces) == [] ==> r == Loopback
    ensures position.Some? && 1 <= position.value <= |CandidateIps(interfaces)| ==>
              r == CandidateIps(interfaces)[position.value - 1]
    ensures !(position.Some? && 1 <= position.value <= |CandidateIps(interfaces)|) && |CandidateIps(interfaces)| > 0 ==>
              r == CandidateIps(interfaces)[0]
  {
    var ips := CandidateIps(interfaces);
    if position.Some? && position.value > 0 && position.value <= |ips| then ips[position.value - 1]
    else if |ips| > 0 then ips[0]
    else Loopback
  }

  /** Interfaces other than `en0` and `en1` never influence the choice. */
  lemma GetIpIgnoresOtherInterfaces(a: Interfaces, b: Interfaces, position: Option<int>)
    requires EntriesOf(a, "en0") == EntriesOf(b, "en0")
    requires EntriesOf(a, "en1") == EntriesOf(b, "en1")
    ensures GetIp(a, position) == GetIp(b, position)
  {
  }
}

=== FILE: view.dfy ===
/** lib/view.js: the data of the multi-build debug page, one entry per stored
    build result. `filterFile` here is also the one of lib/nav.js, which is a
    textual copy. */
module View {
  import opened Strings
  import opened Ordering
  import opened Patterns
  import opened Build
  import PublicPath
  import Utils

  /** A stored build result as lib/view.js reads it: the port it is served on,
      its stats, its configuration, its output file names and its page
      entries. */
  datatype ViewResult = ViewResult(
    port: nat, stat: Stat, config: WebpackConfig, files: seq<string>, htmls: seq<string>)

  datatype FileLink = FileLink(name: string, url: string)

  /** One entry of `buildFiles`. */
  datatype BuildFiles = BuildFiles(name: BuildKind, files: seq<FileLink>)

  /** The names to list: the page entries when there are any, sorted and cut
      down to HTML/template names (which may leave nothing); otherwise the
      script bundles among the output files, hot-update patches excluded,
      sorted. */
  function FilterFile(files: seq<string>, htmls: seq<string>): (r: seq<string>)
    ensures Sorted(r)
    ensures |htmls| > 0 ==> forall x :: multiset(r)[x] == if IsTemplateName(x) then multiset(htmls)[x] else 0
    ensures |htmls| == 0 ==> forall x :: multiset(r)[x] == if IsJsBundle(x) then multiset(files)[x] else 0
  {
    if |htmls| > 0 then
      FilterSorted(Sort(htmls), IsTemplateName);
      FilterMultiset(Sort(htmls), IsTemplateName);
      Filter(Sort(htmls), IsTemplateName)
    else
      FilterMultiset(files, IsJsBundle);
      Sort(Filter(files, IsJsBundle))
  }

  /** The contract of `FilterFile` leaves no freedom: any sorted sequence with
      the stated contents is its result. */
  lemma FilterFileDetermined(files: seq<string>, htmls: seq<string>, r: seq<string>)
    requires Sorted(r)
    requires |htmls| > 0 ==> forall x :: multiset(r)[x] == if IsTemplateName(x) then multiset(htmls)[x] else 0
    requires |htmls| == 0 ==> forall x :: multiset(r)[x] == if IsJsBundle(x) then multiset(files)[x] else 0
    ensures r == FilterFile(files, htmls)
  {
    var f := FilterFile(files, htmls);
    assert multiset(r) == multiset(f);
    SortedUnique(r, f);
  }

  /** An output listing without page entries shows only the real script
      bundle. */
  lemma FilterFileScriptsExample()
    ensures FilterFile(["main.js", "main.hot-update.js", "vendor.css"], []) == ["main.js"]
  {
    var files := ["main.js", "main.hot-update.js", "vendor.css"];
    assert IsJsBundle("main.js");
    assert !IsJsBundle("main.hot-update.js") by {
      assert EndsWith("main.hot-update.js", ".hot-update.js");
    }
    assert !IsJsBundle("vendor.css") by {
      assert "vendor.css"[|"vendor.css"| - 1] == 's' && "vendor.css"[|"vendor.css"| - 2] == 's';
    }
    assert Sorted(["main.js"]);
    FilterFileDetermined(files, [], ["main.js"]);
  }

  /** Page entries win over scripts and come out sorted. */
  lemma FilterFilePagesExample(files: seq<string>, htmls: seq<string>)
    requires htmls == ["index.html", "about.htm"]
    ensures FilterFile(files, htmls) == ["about.htm", "index.html"]
  {
    var r := ["about.htm", "index.html"];
    ExamplePages(r, htmls);
    ExampleSorted(r);
    OnlyPages(r, htmls);
    FilterFileDetermined(files, htmls, r);
  }

  lemma ExamplePages(r: seq<string>, htmls: seq<string>)
    requires htmls == ["index.html", "about.htm"] && r == ["about.htm", "index.html"]
    ensures forall j :: 0 <= j < |htmls| ==> IsTemplateName(htmls[j])
    ensures multiset(r) == multiset(htmls)
  {
    assert IsTemplateName(htmls[0]) && IsTemplateName(htmls[1]);
  }

  lemma ExampleSorted(r: seq<string>)
    requires r == ["about.htm", "index.html"]
    ensures Sorted(r)
  {
    assert Le(r[0], r[1]);
  }

  /** A rearrangement of page entries that are all page names is exactly the
      page selection of them. */
  lemma OnlyPages(r: seq<string>, htmls: seq<string>)
    requires multiset(r) == multiset(htmls)
    requires forall j :: 0 <= j < |htmls| ==> IsTemplateName(htmls[j])
    ensures forall x :: multiset(r)[x] == if IsTemplateName(x) then multiset(htmls)[x] else 0
  {
    forall x ensures multiset(r)[x] == if IsTemplateName(x) then multiset(htmls)[x] else 0 {
      if x in htmls {
        var j :| 0 <= j < |htmls| && htmls[j] == x;
      }
    }
  }

  /** The links of one build: each listed name with its URL under the
      normalised public path, in the listed order. */
  function Links(publicPath: string, names: seq<string>): (r: seq<FileLink>)
    ensures |r| == |names|
    ensures forall m :: 0 <= m < |r| ==> r[m].name == names[m] && r[m].url == JoinUrl(publicPath, names[m])
  {
    seq(|names|, m requires 0 <= m < |names| => FileLink(names[m], JoinUrl(publicPath, names[m])))
  }

  /** The `buildFiles` entry of one stored result: its build kind, and the
      names `FilterFile` lists, in that order, each linked by the
      slash-normalising join under the normalised public path. */
  function Entry(result: ViewResult, interfaces: Utils.Interfaces): (r: BuildFiles)
    ensures r.name == BuildName(result.stat)
    ensures |r.files| == |FilterFile(result.files, result.htmls)|
    ensures forall m :: 0 <= m < |r.files| ==>
              r.files[m] == FileLink(
                FilterFile(result.files, result.htmls)[m],
                JoinUrl(PublicPath.Normalize(result.config.publicPath, result.port, interfaces),
                        FilterFile(result.files, result.htmls)[m]))
  {
    BuildFiles(
      BuildName(result.stat),
      Links(PublicPath.Normalize(result.config.publicPath, result.port, interfaces),
            FilterFile(result.files, result.htmls)))
  }

  /** The data handed to the template by `renderDebugTemplate`: one entry per
      stored result, the result for port `p` at the position of `p` among the
      stored ports in ascending order. */
  function RenderDebugData(table: map<nat, ViewResult>, interfaces: Utils.Interfaces): (r: seq<BuildFiles>)
    ensures |r| == |table|
    ensures forall p :: p in table ==>
              Rank(table.Keys, p) < |r| && r[Rank(table.Keys, p)] == Entry(table[p], interfaces)
  {
    var entries := map p | p in table :: Entry(table[p], interfaces);
    assert entries.Keys == table.Keys;
    assert |entries| == |entries.Keys| == |table.Keys| == |table|;
    ByRank(entries)
  }
}

=== FILE: wrappers.dfy ===
/** Optional values: JavaScript's `undefined` next to a present value. */
module Wrappers {
  datatype Option<+T> = None | Some(value: T)
}
